=== FILE: README.md ===
# Oasira OHIP room status, modelled in Dafny

This project models the decision logic of two Home Assistant sensor
integrations for Oracle Hospitality:

- **The OHIP room-status pipeline** (`custom_components/oasira_ohip/__init__.py`).
  Each `loaddata` cycle does four things:
  1. It authenticates against `{host}/oauth/v1/tokens` with Basic
     credentials (base 64, section 4 of RFC 4648, of the UTF-8 bytes of
     `clientid:clientsecret`, used as in section 2 of RFC 7617).
  2. It fetches `{host}/fof/v1/hotels/{hotelid}/rooms` with a bearer token.
  3. It takes the room list from `hotelRoomsDetails.room`.
  4. It builds one room sensor and one occupancy binary sensor per room.

  The sensor's state is the room's `housekeeping.roomStatus.frontOfficeStatus`,
  or "Unknown" when that is missing. The binary sensor is on when that status
  exists and is not "Vacant".
- **The legacy front-office status sensor** (`sensor.py`). Its `update`
  replaces the state with the `status` field of `{api_url}/property/v1/foStatus`.
  The state falls back to "unknown" when the field is missing and to "error"
  when the request fails.

The network is abstracted. The HTTP outcomes are datatypes (`Http.Outcome`,
`FrontOffice.Reply`). A transport failure records which Python exception
classes it belongs to, because aiohttp's connection errors are both
`ClientError` and `OSError`. A response body records whether its content
type is JSON, and whether its text is blank, a JSON document or malformed.
Python exceptions are explicit: `Py.Result` is either `Ok(value)` or
`Raise(exception)`, and Dafny's `:-` plays the part of an exception that
propagates.

Modules, leaf first:
- `Optional` is `Option`, and `Bytes` is the octet type the encoders share.
- `Py` holds exceptions, `Result`, and the list comprehension (`Collect`).
- `Json` holds decoded values, `dict.get`, subscripting, truthiness and `str()`.
- `Base64` and `Utf8` are the encoders, each with a strict decoder.
- `Http` holds requests, outcomes, and the two ways the code reads a body.
- `OhipAuth` covers `authenticate` and the token request.
- `OhipRooms` covers the rooms request, the room list, the entities and `loaddata`.
- `FrontOffice` covers `sensor.py`.

Facts about the code that shape the model:
- The code has no room registry, no create-versus-update reconciliation and no
  per-floor housekeeping query. Every cycle builds new entity lists.
- A room record without `roomId` gets no default. Subscripting
  it raises `KeyError`, and `loaddata`'s handler does not catch that, so the
  model returns `Raise(KeyError)` from `OhipRooms.LoadData`. The model uses
  this error path instead of a precondition.
- `authenticate` does not always return a token or `""`. It lets three
  things escape:
  - a `json.JSONDecodeError` from a 200 response with a JSON content type
    and a malformed body;
  - an `AttributeError` from a 200 JSON body that is not an object;
  - a transport failure that is not an `aiohttp.ClientError`.

  `loaddata`'s handler catches the first one, and the third when it is an
  `OSError`.
- A truthy `access_token` that is not a string is returned as it is. The
  `"Bearer " + token` step then raises `TypeError`.
- The rooms response's status code is never examined (`OhipRooms.LoadDataIgnoresStatus`).

## Model

| member | source | states |
|---|---|---|
| `OhipAuth.TokenRequest` | custom_components/oasira_ohip/__init__.py:139-156 | The token request is a POST whose URL is the host followed by `/oauth/v1/tokens`, and it carries no requests-style credential pair. |
| `OhipAuth.TokenRequestHeaders` | custom_components/oasira_ohip/__init__.py:147-152 | The headers carry the Basic Authorization value built from the client id and secret, the `x-app-key` header, and the form content type. |
| `OhipAuth.TokenRequestForm` | custom_components/oasira_ohip/__init__.py:145 | The form holds exactly three fields: `username`, `password` and `grant_type=password`. |
| `OhipAuth.Authenticate` | custom_components/oasira_ohip/__init__.py:154-174 | A ClientError gives `""`, and a non-ClientError transport failure raises. A non-200 status gives `""`. A 200 JSON object gives its `access_token` when that is truthy, of any type, and `""` otherwise. Any other result is `""` or a truthy value that is the body's `access_token`. A JSON-typed 200 body that is malformed always raises JSONDecodeError. One that is blank or not an object always raises AttributeError. These and the transport failure are the only exceptions. |
| `OhipAuth.AuthenticateTokenExactly` | custom_components/oasira_ohip/__init__.py:157-168 | The result is a non-empty string token `t` exactly when the response is a 200 JSON object whose `access_token` is `t`. |
| `OhipAuth.AuthenticateHandledFailures` | custom_components/oasira_ohip/__init__.py:157-174 | A 200 without `access_token`, a 200 with a falsy one, and a 200 with a non-JSON content type (a ClientError) each give `""`, not an exception. |
| `OhipAuth.CredentialsEncoding` | custom_components/oasira_ohip/__init__.py:143 | The Basic payload decodes back to the UTF-8 bytes of `clientid:clientsecret`, which are the client id's bytes, the colon byte 0x3A and the secret's bytes. It has length 4·⌈n/3⌉ and uses only the base 64 alphabet, with `=` only in the last two places. |
| `OhipAuth.CredentialsBytes` | custom_components/oasira_ohip/__init__.py:143 | The UTF-8 bytes of `clientid:clientsecret` are the client id's bytes, the single byte 0x3A, then the secret's bytes. |
| `OhipAuth.BasicAuthorizationRoundTrip` | custom_components/oasira_ohip/__init__.py:143-148 | For a client id without a colon, a server that parses the Authorization header as RFC 7617 prescribes recovers exactly `(clientid, clientsecret)`. |
| `Base64.EncodeLength` | custom_components/oasira_ohip/__init__.py:143 | `b64encode` of n bytes has length 4·⌈n/3⌉. |
| `Base64.EncodeAlphabet` | custom_components/oasira_ohip/__init__.py:143 | `b64encode` output uses only `A–Z a–z 0–9 + /`, plus `=` padding in at most the last two positions. |
| `Base64.DecodeEncode` | custom_components/oasira_ohip/__init__.py:143 | Decoding a `b64encode` output returns the original bytes. |
| `Base64.EncodeDecode` | custom_components/oasira_ohip/__init__.py:143 | Every string the strict decoder accepts is the encoding of what it decodes to, so each byte string has exactly one encoding. |
| `Utf8.DecodeEncode` | custom_components/oasira_ohip/__init__.py:143 | `str.encode()` (UTF-8) loses nothing: decoding its bytes returns the string. |
| `Utf8.EncodeDecode` | custom_components/oasira_ohip/__init__.py:143 | Every byte string the strict UTF-8 decoder accepts is the encoding of its result. |
| `OhipRooms.RoomsRequest` | custom_components/oasira_ohip/__init__.py:75-82 | The rooms request is a GET whose URL reads back as the configured hotel id under the host. Its headers carry `Authorization: Bearer {token}`, `x-hotelid`, `x-app-key` and `Accept: application/json`. |
| `OhipRooms.RoomsUrlInjective` | custom_components/oasira_ohip/__init__.py:75 | On one host, two different hotel ids give different room URLs. |
| `OhipRooms.RoomsFetch` | custom_components/oasira_ohip/__init__.py:69-82 | A string token always yields the rooms request built from it, and a successful fetch came from such a token. An exception from `authenticate` propagates, and a non-string token raises TypeError. |
| `OhipRooms.BearerWithoutToken` | custom_components/oasira_ohip/__init__.py:69-82 | Whenever `authenticate` returns `""`, whether for a ClientError, a non-200 status or a 200 without a truthy token, the rooms request is still sent, with the header `Authorization: Bearer ` and no token, because nothing checks the token. |
| `OhipRooms.Rooms` | custom_components/oasira_ohip/__init__.py:101-102 | A list gives its items, and an empty str or dict gives none. Every other value ends the comprehension in TypeError. Null, booleans and integers are not iterable. A non-empty str or dict iterates, but it yields strings, and line 182's `['roomId']` rejects a string. |
| `OhipRooms.RoomListPath` | custom_components/oasira_ohip/__init__.py:101 | The room list is `hotelRoomsDetails.room` when both keys exist, and empty when either key is missing. A non-dict `hotelRoomsDetails` raises AttributeError. |
| `OhipRooms.FrontOfficeStatusSpec` | custom_components/oasira_ohip/__init__.py:184-188 | The chained `.get` gives the stored status when the whole path exists, even a JSON null, and the default when a key is missing. It raises AttributeError exactly when a step that is present is not a dict. |
| `OhipRooms.RoomSensorSpec` | custom_components/oasira_ohip/__init__.py:180-188 | A sensor is built exactly for a dict record with `roomId` and a well-shaped status path. A missing `roomId` raises KeyError and a non-dict record raises TypeError. The name is `{hotelid} Room {roomId}`, the sensor carries the room id, and its state is the front-office status or "Unknown". |
| `OhipRooms.OccupancySensorSpec` | custom_components/oasira_ohip/__init__.py:209-218 | The binary sensor exists for exactly the same records and raises the same exceptions. Its name is the room sensor's name plus " Occupied" and it carries the same room id. It is on iff the status exists and is not "Vacant", so a missing status gives off while the room sensor says "Unknown". |
| `Py.Collect` | custom_components/oasira_ohip/__init__.py:102 | A list comprehension yields one result per element, in order, or the exception of the first element that raises. |
| `Py.CollectFirstRaise` | custom_components/oasira_ohip/__init__.py:102 | When element `i` is the first whose construction raises, the list comprehension raises exactly that element's exception. |
| `Http.LoadsText` | custom_components/oasira_ohip/__init__.py:92-99 | `json.loads` of the response text gives the document, and raises JSONDecodeError on blank or malformed text. |
| `Http.AiohttpJson` | custom_components/oasira_ohip/__init__.py:158 | `response.json()` succeeds exactly on a JSON content type with a body that is not malformed, and yields the document or None for a blank body. Its exception is a ClientError exactly when the content type is wrong, and otherwise a JSONDecodeError. |
| `Http.ReadersAgree` | custom_components/oasira_ohip/__init__.py:92-99 | `json.loads(response.text())` and `response.json()` give the same outcome exactly when the content type is JSON and the body is not blank. On a JSON document they both give that document. |
| `Json.Get` | custom_components/oasira_ohip/__init__.py:101 | `dict.get` gives the stored value for a present key, even a null one, and the default for a missing key. It raises AttributeError exactly on a value that is not a dict. |
| `Json.Subscript` | custom_components/oasira_ohip/__init__.py:182-183 | `room_data['roomId']` succeeds exactly on a dict holding the key. It raises KeyError on a dict without the key and TypeError on anything else. |
| `Json.Str` | custom_components/oasira_ohip/__init__.py:182 | In the f-string names of lines 182 and 211, a string room id appears unchanged. An integer room id appears in Python's canonical decimal form: an independent reader recovers the integer from it, there is a `-` only for a negative id, and there is no leading zero. |
| `Json.DigitsReadBack` | custom_components/oasira_ohip/__init__.py:182 | The digits rendered for a natural number read back, left to right, to that number. They have no leading zero, and zero is the single digit `0`. |
| `OhipRooms.NewRoomSensor` | custom_components/oasira_ohip/__init__.py:180-188 | A room sensor is built only from a dict record holding `roomId`, and it carries that record's `roomId`. |
| `OhipRooms.NewOccupancySensor` | custom_components/oasira_ohip/__init__.py:209-218 | A binary sensor is built only from a dict record holding `roomId`, and it carries that record's `roomId`. |
| `OhipRooms.LoadData` | custom_components/oasira_ohip/__init__.py:53-119 | The cycle returns `True` exactly when a string token was obtained and the rooms body is JSON whose room list reads out and holds only dict records with `roomId` and a well-shaped status path. It returns `False`, with no entities, exactly on a handled failure: a JSONDecodeError or OSError out of `authenticate`, a rooms fetch failing with an OSError, or a rooms body that is not JSON. No other exception is caught. On `True` there is one room sensor and one binary sensor per room, in list order, each carrying its room's `roomId`. |
| `OhipRooms.AttemptCases` | custom_components/oasira_ohip/__init__.py:58-113 | The statements inside the `try` complete exactly for a complete fetch after a string token. They raise an exception the handler catches exactly on a handled failure. |
| `OhipRooms.AfterTokenCases` | custom_components/oasira_ohip/__init__.py:88-113 | Once the rooms request is built, the rest of the `try` completes exactly for a complete fetch. It raises a caught exception exactly when the fetch fails with an OSError or the body is not JSON. |
| `OhipRooms.ProcessCases` | custom_components/oasira_ohip/__init__.py:99-113 | Decoding the body and building the entities completes exactly when the body is JSON and every room record is complete. Its only caught exception is the decode error of a body that is not JSON. |
| `OhipRooms.LoadDataHandledFailures` | custom_components/oasira_ohip/__init__.py:88-117 | A rooms body that is not JSON, or a rooms fetch failing with an OSError, ends the cycle with `False` and no entities. |
| `OhipRooms.LoadDataAuthFailures` | custom_components/oasira_ohip/__init__.py:69-71 | A malformed JSON token response, or an OSError-only timeout during authentication, also ends the cycle with `False`. |
| `OhipRooms.LoadDataNoRooms` | custom_components/oasira_ohip/__init__.py:101-119 | A decoded body without `hotelRoomsDetails` gives `True` with no entities. |
| `OhipRooms.LoadDataMissingRoomId` | custom_components/oasira_ohip/__init__.py:182 | A dict room record without `roomId`, at any position after complete records, makes the whole cycle raise KeyError. The handler at line 115 does not catch it. |
| `OhipRooms.LoadDataIgnoresStatus` | custom_components/oasira_ohip/__init__.py:88-99 | The cycle's result does not depend on the rooms response's status code. |
| `FrontOffice.NewSensor` | sensor.py:8-11 | A new sensor keeps its configuration and has state `None`. |
| `FrontOffice.NameIgnoresState` | sensor.py:13-16 | The name is DEFAULT_NAME whatever the state, and an update does not change it. |
| `FrontOffice.StatusRequest` | sensor.py:25-34 | The request is a GET of `api_url` followed by `/property/v1/foStatus`, with the `(username, password)` credentials and only the header `Accept: application/json`. |
| `FrontOffice.NewState` | sensor.py:29-39 | A RequestException, a 4xx/5xx status, or a body that is not JSON gives "error". A JSON object gives its `status` value, or "unknown" when that is absent. Any other JSON value raises AttributeError, which the handler does not catch. |
| `FrontOffice.Update` | sensor.py:23-39 | An update keeps the configuration and installs the state the reply determines. It raises exactly when that state computation raises. |
| `FrontOffice.UpdateForgetsPriorState` | sensor.py:23-39 | Two sensors with the same configuration end in the same state after the same reply: the prior state plays no part. |
| `FrontOffice.StepIdempotent` | sensor.py:23-39 | Applying the same reply twice leaves what one application left. |
| `FrontOffice.StatusReported` | sensor.py:35-36 | A 2xx JSON object sets the state to its `status` value, or to "unknown" without one. |

## Left out

- HTTP and JSON decoding themselves (aiohttp, requests, `json.loads`, `response.json()`) are foreign I/O. The outcome datatypes replace them.
- The 15-minute timer and asynchronous scheduling (`async_track_time_interval`, `async_update`) are timing and concurrency. The model has one cycle as a function. The code has no overlap guard, so none is modelled.
- Entity registration (`async_get_platforms`, `async_add_entities`), `hass.data` storage, `async_setup_entry`, `async_unload_entry` and the root `__init__.py` are framework lifecycle.
- Both config flows are form schemas that copy user input into the entry data. The model takes the resulting `Config` as given, with every field a string.
- Logging and `print` are side effects with no bearing on results.
- DEFAULT_NAME and the configuration keys live in a constants module that is not part of this model. `FrontOffice.Name` takes the name as a parameter.
- Json.Str: Python's `str()` of a list or dict room id, which is its repr, is rendered by a bracket stand-in. Its contract covers string and integer room ids. Null and boolean ids render as `None`, `True` and `False`, which is what Python prints for them, but no ensures clause states it.
- JSON numbers with a fraction or exponent, which Python decodes to floats, are not modelled. Numbers are integers.
- FrontOffice.StatusRequest: keeps the `(username, password)` pair. The requests library builds the Basic header from it with Latin-1, and that is not modelled.
- A response text that fails charset decoding, and the `content is None` branch at line 98, which cannot occur because `response.text()` returns a str, are not modelled.

=== FILE: base64.dfy ===
/** The base 64 encoding of section 4 of RFC 4648, with the standard
    alphabet of its table 1 and `=` padding, as Python's `base64.b64encode`
    produces it; and the matching strict decoder, which accepts exactly the
    strings the encoder can produce. */
module Base64 {
  import opened Optional
  import opened Bytes

  /** The 64 symbols of table 1: `A-Z` for 0-25, `a-z` for 26-51, `0-9` for
      52-61, then `+` and `/`. */
  predicate IsSymbol(c: char) {
    ('A' <= c <= 'Z') || ('a' <= c <= 'z') || ('0' <= c <= '9') || c == '+' || c == '/'
  }

  const Pad: char := '='

  /** The symbol table 1 assigns to a 6-bit value. */
  function Symbol(v: int): (c: char)
    requires 0 <= v < 64
    ensures IsSymbol(c)
  {
    if v < 26 then ('A' as int + v) as char
    else if v < 52 then ('a' as int + (v - 26)) as char
    else if v < 62 then ('0' as int + (v - 52)) as char
    else if v == 62 then '+'
    else '/'
  }

  /** The 6-bit value a symbol stands for; the inverse of `Symbol`. */
  function Value(c: char): (v: int)
    requires IsSymbol(c)
    ensures 0 <= v < 64
    ensures Symbol(v) == c
  {
    if 'A' <= c <= 'Z' then c as int - 'A' as int
    else if 'a' <= c <= 'z' then c as int - 'a' as int + 26
    else if '0' <= c <= '9' then c as int - '0' as int + 52
    else if c == '+' then 62
    else 63
  }

  lemma ValueOfSymbol(v: int)
    requires 0 <= v < 64
    ensures Value(Symbol(v)) == v
  {
  }

  /** Three input bytes (24 bits) become four symbols, 6 bits each. */
  function EncodeTriple(a: byte, b: byte, c: byte): string {
    [Symbol(a / 4), Symbol((a % 4) * 16 + b / 16), Symbol((b % 16) * 4 + c / 64), Symbol(c % 64)]
  }

  /** A final quantum of 16 bits: three symbols (zero bits appended) and one pad. */
  function EncodePair(a: byte, b: byte): string {
    [Symbol(a / 4), Symbol((a % 4) * 16 + b / 16), Symbol((b % 16) * 4), Pad]
  }

  /** A final quantum of 8 bits: two symbols (zero bits appended) and two pads. */
  function EncodeSingle(a: byte): string {
    [Symbol(a / 4), Symbol((a % 4) * 16), Pad, Pad]
  }

  function Encode(bs: seq<byte>): string
    decreases |bs|
  {
    if |bs| == 0 then ""
    else if |bs| == 1 then EncodeSingle(bs[0])
    else if |bs| == 2 then EncodePair(bs[0], bs[1])
    else EncodeTriple(bs[0], bs[1], bs[2]) + Encode(bs[3..])
  }

  /** Decodes one group of four characters; `last` says whether it ends the
      input, the only place padding may appear. Padding is accepted only when
      the bits it stands for are zero, so every accepted group is one the
      encoder emits. */
  function DecodeQuad(q: string, last: bool): Option<seq<byte>>
    requires |q| == 4
  {
    if IsSymbol(q[0]) && IsSymbol(q[1]) && IsSymbol(q[2]) && IsSymbol(q[3]) then
      var v0, v1, v2, v3 := Value(q[0]), Value(q[1]), Value(q[2]), Value(q[3]);
      Some([v0 * 4 + v1 / 16, (v1 % 16) * 16 + v2 / 4, (v2 % 4) * 64 + v3])
    else if last && IsSymbol(q[0]) && IsSymbol(q[1]) && IsSymbol(q[2]) && q[3] == Pad
            && Value(q[2]) % 4 == 0 then
      var v0, v1, v2 := Value(q[0]), Value(q[1]), Value(q[2]);
      Some([v0 * 4 + v1 / 16, (v1 % 16) * 16 + v2 / 4])
    else if last && IsSymbol(q[0]) && IsSymbol(q[1]) && q[2] == Pad && q[3] == Pad
            && Value(q[1]) % 16 == 0 then
      var v0, v1 := Value(q[0]), Value(q[1]);
      Some([v0 * 4 + v1 / 16])
    else None
  }

  function Decode(s: string): Option<seq<byte>>
    decreases |s|
  {
    if |s| == 0 then Some([])
    else if |s| < 4 then None
    else
      match DecodeQuad(s[..4], |s| == 4)
      case None => None
      case Some(head) =>
        match Decode(s[4..])
        case None => None
        case Some(tail) => Some(head + tail)
  }

  /** Every 3 input bytes, and a final partial group of 1 or 2, become 4
      output characters: the length is 4 * ceil(n / 3). */
  lemma {:induction false} EncodeLength(bs: seq<byte>)
    ensures |Encode(bs)| == 4 * ((|bs| + 2) / 3)
    decreases |bs|
  {
    if |bs| > 2 {
      EncodeLength(bs[3..]);
      assert |Encode(bs)| == 4 + |Encode(bs[3..])|;
      assert (|bs| + 2) / 3 == 1 + (|bs[3..]| + 2) / 3;
    }
  }

  /** The output uses only the 64 symbols, plus `=` in at most the last two
      positions. */
  lemma {:induction false} EncodeAlphabet(bs: seq<byte>)
    ensures forall i :: 0 <= i < |Encode(bs)| ==>
              IsSymbol(Encode(bs)[i]) || (Encode(bs)[i] == Pad && i >= |Encode(bs)| - 2)
    decreases |bs|
  {
    if |bs| > 2 {
      EncodeAlphabet(bs[3..]);
      EncodeLength(bs[3..]);
      var t := EncodeTriple(bs[0], bs[1], bs[2]);
      var s := Encode(bs);
      assert s == t + Encode(bs[3..]);
      forall i | 0 <= i < |s|
        ensures IsSymbol(s[i]) || (s[i] == Pad && i >= |s| - 2)
      {
        if i >= 4 {
          assert s[i] == Encode(bs[3..])[i - 4];
        }
      }
    }
  }

  /** The 6-bit groups of three bytes reassemble to those bytes. */
  lemma TripleRegroup(a: byte, b: byte, c: byte)
    ensures var v0, v1, v2, v3 := a / 4, (a % 4) * 16 + b / 16, (b % 16) * 4 + c / 64, c % 64;
            && v0 * 4 + v1 / 16 == a
            && (v1 % 16) * 16 + v2 / 4 == b
            && (v2 % 4) * 64 + v3 == c
  {
  }

  lemma TripleRoundTrip(a: byte, b: byte, c: byte, last: bool)
    ensures DecodeQuad(EncodeTriple(a, b, c), last) == Some([a, b, c])
  {
    var v0, v1, v2, v3 := a / 4, (a % 4) * 16 + b / 16, (b % 16) * 4 + c / 64, c % 64;
    var q := EncodeTriple(a, b, c);
    ValueOfSymbol(v0);
    ValueOfSymbol(v1);
    ValueOfSymbol(v2);
    ValueOfSymbol(v3);
    assert Value(q[0]) == v0 && Value(q[1]) == v1 && Value(q[2]) == v2 && Value(q[3]) == v3;
    TripleRegroup(a, b, c);
  }

  lemma PairRoundTrip(a: byte, b: byte)
    ensures DecodeQuad(EncodePair(a, b), true) == Some([a, b])
  {
    var q := EncodePair(a, b);
    ValueOfSymbol(a / 4);
    ValueOfSymbol((a % 4) * 16 + b / 16);
    ValueOfSymbol((b % 16) * 4);
    assert Value(q[0]) == a / 4;
    assert Value(q[1]) == (a % 4) * 16 + b / 16;
    assert Value(q[2]) == (b % 16) * 4;
    assert !IsSymbol(q[3]);
  }

  lemma SingleRoundTrip(a: byte)
    ensures DecodeQuad(EncodeSingle(a), true) == Some([a])
  {
    var q := EncodeSingle(a);
    ValueOfSymbol(a / 4);
    ValueOfSymbol((a % 4) * 16);
    assert Value(q[0]) == a / 4;
    assert Value(q[1]) == (a % 4) * 16;
    assert !IsSymbol(q[2]) && !IsSymbol(q[3]);
  }

  /** Decoding proceeds group by group from the front. */
  lemma DecodeCons(q: string, rest: string, h: seq<byte>, t: seq<byte>)
    requires |q| == 4
    requires DecodeQuad(q, rest == []) == Some(h)
    requires Decode(rest) == Some(t)
    ensures Decode(q + rest) == Some(h + t)
  {
    var s := q + rest;
    assert s[..4] == q;
    assert s[4..] == rest;
  }

  lemma DecodeEncodeSingle(bs: seq<byte>)
    requires |bs| == 1
    ensures Decode(Encode(bs)) == Some(bs)
  {
    SingleRoundTrip(bs[0]);
    DecodeCons(EncodeSingle(bs[0]), "", [bs[0]], []);
    assert EncodeSingle(bs[0]) + "" == Encode(bs);
    assert [bs[0]] + [] == bs;
  }

  lemma DecodeEncodePair(bs: seq<byte>)
    requires |bs| == 2
    ensures Decode(Encode(bs)) == Some(bs)
  {
    PairRoundTrip(bs[0], bs[1]);
    DecodeCons(EncodePair(bs[0], bs[1]), "", [bs[0], bs[1]], []);
    assert EncodePair(bs[0], bs[1]) + "" == Encode(bs);
    assert [bs[0], bs[1]] + [] == bs;
  }

  /** Decoding an encoding gives back the original bytes. */
  lemma {:induction false} DecodeEncode(bs: seq<byte>)
    ensures Decode(Encode(bs)) == Some(bs)
    decreases |bs|
  {
    if |bs| == 1 {
      DecodeEncodeSingle(bs);
    } else if |bs| == 2 {
      DecodeEncodePair(bs);
    } else if |bs| > 2 {
      DecodeEncode(bs[3..]);
      DecodeEncodeTriple(bs[0], bs[1], bs[2], bs[3..]);
      SplitFirstThree(bs);
    }
  }

  lemma SplitFirstThree(bs: seq<byte>)
    requires |bs| >= 3
    ensures bs == [bs[0], bs[1], bs[2]] + bs[3..]
  {
  }

  lemma DecodeEncodeTriple(a: byte, b: byte, c: byte, tail: seq<byte>)
    requires Decode(Encode(tail)) == Some(tail)
    ensures Decode(Encode([a, b, c] + tail)) == Some([a, b, c] + tail)
  {
    var bs := [a, b, c] + tail;
    assert bs[3..] == tail;
    var rest := Encode(tail);
    EncodeLength(tail);
    TripleRoundTrip(a, b, c, rest == []);
    DecodeCons(EncodeTriple(a, b, c), rest, [a, b, c], tail);
  }

  /** Whatever the decoder accepts, the encoder reproduces exactly: the
      decoder is strict, so each byte string has one encoding. */
  lemma {:induction false} EncodeDecode(s: string)
    requires Decode(s).Some?
    ensures Encode(Decode(s).value) == s
    decreases |s|
  {
    if |s| > 0 {
      var q := s[..4];
      var head := DecodeQuad(q, |s| == 4).value;
      var tail := Decode(s[4..]).value;
      EncodeDecode(s[4..]);
      QuadInverse(q, |s| == 4);
      if |head| < 3 {
        assert |s| == 4;
        assert tail == [];
        assert Decode(s).value == head;
        assert s == q;
      } else {
        var bs := head + tail;
        assert bs[3..] == tail;
        assert Encode(bs) == EncodeTriple(head[0], head[1], head[2]) + Encode(tail);
        assert s == q + s[4..];
      }
    }
  }

  /** A group the decoder accepts re-encodes to itself. */
  lemma QuadInverse(q: string, last: bool)
    requires |q| == 4
    requires DecodeQuad(q, last).Some?
    ensures var h := DecodeQuad(q, last).value;
            && 1 <= |h| <= 3
            && (|h| < 3 ==> last)
            && (|h| == 3 ==> EncodeTriple(h[0], h[1], h[2]) == q)
            && (|h| == 2 ==> EncodePair(h[0], h[1]) == q)
            && (|h| == 1 ==> EncodeSingle(h[0]) == q)
  {
    var h := DecodeQuad(q, last).value;
    if IsSymbol(q[0]) && IsSymbol(q[1]) && IsSymbol(q[2]) && IsSymbol(q[3]) {
      var v0, v1, v2, v3 := Value(q[0]), Value(q[1]), Value(q[2]), Value(q[3]);
      assert h == [v0 * 4 + v1 / 16, (v1 % 16) * 16 + v2 / 4, (v2 % 4) * 64 + v3];
      FullQuadInverse(q, h[0], h[1], h[2]);
    } else if last && IsSymbol(q[0]) && IsSymbol(q[1]) && IsSymbol(q[2]) && q[3] == Pad
              && Value(q[2]) % 4 == 0 {
      var v0, v1, v2 := Value(q[0]), Value(q[1]), Value(q[2]);
      assert h == [v0 * 4 + v1 / 16, (v1 % 16) * 16 + v2 / 4];
      PairQuadInverse(q, h[0], h[1]);
    } else {
      assert last && IsSymbol(q[0]) && IsSymbol(q[1]) && q[2] == Pad && q[3] == Pad;
      var v0, v1 := Value(q[0]), Value(q[1]);
      assert h == [v0 * 4 + v1 / 16];
      SingleQuadInverse(q, h[0]);
    }
  }

  /** Division by a constant is pinned down by quotient and remainder. */
  lemma DivMod(x: int, d: int, q: int, r: int)
    requires d in {4, 16, 64} && 0 <= r < d && x == q * d + r
    ensures x / d == q && x % d == r
  {
    if d == 4 {
      assert x == q * 4 + r;
    } else if d == 16 {
      assert x == q * 16 + r;
    } else {
      assert x == q * 64 + r;
    }
  }

  /** Four 6-bit values regroup into three bytes whose 6-bit groups are
      those values again. */
  lemma QuadRegroup(v0: int, v1: int, v2: int, v3: int, a: int, b: int, c: int)
    requires 0 <= v0 < 64 && 0 <= v1 < 64 && 0 <= v2 < 64 && 0 <= v3 < 64
    requires a == v0 * 4 + v1 / 16 && b == (v1 % 16) * 16 + v2 / 4 && c == (v2 % 4) * 64 + v3
    ensures a / 4 == v0 && (a % 4) * 16 + b / 16 == v1
    ensures (b % 16) * 4 + c / 64 == v2 && c % 64 == v3
  {
    DivMod(a, 4, v0, v1 / 16);
    DivMod(b, 16, v1 % 16, v2 / 4);
    DivMod(c, 64, v2 % 4, v3);
    DivMod(v1, 16, v1 / 16, v1 % 16);
    DivMod(v2, 4, v2 / 4, v2 % 4);
  }

  lemma FullQuadInverse(q: string, a: byte, b: byte, c: byte)
    requires |q| == 4 && IsSymbol(q[0]) && IsSymbol(q[1]) && IsSymbol(q[2]) && IsSymbol(q[3])
    requires var v0, v1, v2, v3 := Value(q[0]), Value(q[1]), Value(q[2]), Value(q[3]);
             a == v0 * 4 + v1 / 16 && b == (v1 % 16) * 16 + v2 / 4 && c == (v2 % 4) * 64 + v3
    ensures EncodeTriple(a, b, c) == q
  {
    var v0, v1, v2, v3 := Value(q[0]), Value(q[1]), Value(q[2]), Value(q[3]);
    QuadRegroup(v0, v1, v2, v3, a, b, c);
    assert Symbol(a / 4) == q[0] && Symbol((a % 4) * 16 + b / 16) == q[1];
    assert Symbol((b % 16) * 4 + c / 64) == q[2] && Symbol(c % 64) == q[3];
  }

  lemma PairQuadInverse(q: string, a: byte, b: byte)
    requires |q| == 4 && IsSymbol(q[0]) && IsSymbol(q[1]) && IsSymbol(q[2]) && q[3] == Pad
    requires Value(q[2]) % 4 == 0
    requires var v0, v1, v2 := Value(q[0]), Value(q[1]), Value(q[2]);
             a == v0 * 4 + v1 / 16 && b == (v1 % 16) * 16 + v2 / 4
    ensures EncodePair(a, b) == q
  {
    var v0, v1, v2 := Value(q[0]), Value(q[1]), Value(q[2]);
    DivMod(a, 4, v0, v1 / 16);
    DivMod(b, 16, v1 % 16, v2 / 4);
    DivMod(v1, 16, v1 / 16, v1 % 16);
    DivMod(v2, 4, v2 / 4, 0);
    assert a / 4 == v0 && (a % 4) * 16 + b / 16 == v1 && (b % 16) * 4 == v2;
    assert [Symbol(v0), Symbol(v1), Symbol(v2), Pad] == q;
  }

  lemma SingleQuadInverse(q: string, a: byte)
    requires |q| == 4 && IsSymbol(q[0]) && IsSymbol(q[1]) && q[2] == Pad && q[3] == Pad
    requires Value(q[1]) % 16 == 0
    requires a == Value(q[0]) * 4 + Value(q[1]) / 16
    ensures EncodeSingle(a) == q
  {
    var v0, v1 := Value(q[0]), Value(q[1]);
    DivMod(a, 4, v0, v1 / 16);
    DivMod(v1, 16, v1 / 16, 0);
    assert [Symbol(v0), Symbol(v1), Pad, Pad] == q;
  }
}

=== FILE: bytes.dfy ===
/** Octets, as the encoders of this model produce and consume them. */
module Bytes {
  type byte = x: int | 0 <= x < 256
}

=== FILE: front_office.dfy ===
/** The legacy front-office status sensor: one entity whose state is
    refreshed from the property's `foStatus` endpoint. Its `update` is a
    small state machine: the new state is a function of the latest fetch
    outcome alone, with "unknown" and "error" as fallbacks. */
module FrontOffice {
  import opened Optional
  import opened Py
  import opened Json
  import opened Http

  /** The configuration entry's data the sensor reads. */
  datatype Config = Config(apiUrl: string, username: string, password: string)

  /** The entity. Its state is a decoded JSON value; Python's `None` (the
      state before any update, or a JSON `null` status) is `JNull`. */
  datatype Sensor = Sensor(config: Config, state: Value)

  const StatusPath := "/property/v1/foStatus"

  /** What the requests library hands back for the status request: a
      `requests.RequestException` raised while sending (connection error,
      timeout, ...), or a response with its status code and body text. */
  datatype Reply = RequestFailed | Reply(status: int, payload: Payload)

  /** A freshly constructed sensor keeps its configuration and has no state. */
  function NewSensor(config: Config): (s: Sensor)
    ensures s.config == config && s.state == JNull
  {
    Sensor(config, JNull)
  }

  /** The `name` property: the integration's DEFAULT_NAME, which is passed in
      because the constants module is not part of this model. */
  function Name(s: Sensor, defaultName: string): string {
    defaultName
  }

  /** The name never depends on the state, so no update changes it. */
  lemma NameIgnoresState(s: Sensor, r: Reply, defaultName: string)
    ensures Name(Step(s, r), defaultName) == Name(s, defaultName) == defaultName
  {
  }

  /** The GET `update` sends: the status endpoint under the configured API
      URL, basic credentials, JSON accepted. */
  function StatusRequest(c: Config): (r: Request)
    ensures r.verb == GET && r.form == []
    ensures |r.url| == |c.apiUrl| + |StatusPath|
    ensures r.url[..|c.apiUrl|] == c.apiUrl && r.url[|c.apiUrl|..] == StatusPath
    ensures r.credentials == Some((c.username, c.password))
    ensures Lookup(r.headers, "Accept") == Some("application/json") && |r.headers| == 1
  {
    Request(GET, c.apiUrl + StatusPath, [("Accept", "application/json")], [], Some((c.username, c.password)))
  }

  /** `raise_for_status()` raises HTTPError, a RequestException, for the
      4xx and 5xx codes. */
  predicate IsErrorStatus(status: int) {
    400 <= status < 600
  }

  /** The state `update` computes from a reply. A RequestException, an error
      status and a body that is not JSON (requests' JSONDecodeError is a
      RequestException) all give "error"; a JSON object gives its "status"
      value or "unknown"; any other JSON value makes `.get` raise
      AttributeError, which `update` does not catch. */
  function NewState(r: Reply): (st: Result<Value>)
    ensures r.RequestFailed? ==> st == Ok(JStr("error"))
    ensures r.Reply? && IsErrorStatus(r.status) ==> st == Ok(JStr("error"))
    ensures r.Reply? && !r.payload.Doc? ==> st == Ok(JStr("error"))
    ensures st.Raise? <==> r.Reply? && !IsErrorStatus(r.status) && r.payload.Doc? && !r.payload.value.JObj?
    ensures st.Raise? ==> st.exc == AttributeError
    ensures r.Reply? && !IsErrorStatus(r.status) && r.payload.Doc? && r.payload.value.JObj? ==>
              var m := r.payload.value.fields;
              st == Ok(if "status" in m then m["status"] else JStr("unknown"))
  {
    match r
    case RequestFailed => Ok(JStr("error"))
    case Reply(status, payload) =>
      if IsErrorStatus(status) then Ok(JStr("error"))
      else
        match payload
        case Doc(v) => Get(v, "status", JStr("unknown"))
        case _ => Ok(JStr("error"))
  }

  /** `update`: the sensor with its new state, or the exception that escapes. */
  function Update(s: Sensor, r: Reply): (u: Result<Sensor>)
    ensures u.Ok? ==> u.value.config == s.config
    ensures u.Ok? <==> NewState(r).Ok?
    ensures u.Ok? ==> u.value.state == NewState(r).value
  {
    var st :- NewState(r);
    Ok(s.(state := st))
  }

  /** The entity after an update cycle: when `update` raises, the entity
      keeps the state it had. */
  function Step(s: Sensor, r: Reply): Sensor {
    match Update(s, r)
    case Ok(s') => s'
    case Raise(_) => s
  }

  /** The new state depends only on the latest reply, never on the state
      before it. */
  lemma UpdateForgetsPriorState(s: Sensor, t: Sensor, r: Reply)
    requires s.config == t.config
    ensures Update(s, r) == Update(t, r)
  {
  }

  /** Applying the same reply twice leaves the state the first application
      left: `update` is idempotent per reply. */
  lemma StepIdempotent(s: Sensor, r: Reply)
    ensures Step(Step(s, r), r) == Step(s, r)
  {
  }

  /** A successful status reply sets the state to its "status" value, and to
      "unknown" when the value is absent. */
  lemma StatusReported(s: Sensor, status: int, m: map<string, Value>)
    requires 200 <= status < 300
    ensures "status" in m ==> Step(s, Reply(status, Doc(JObj(m)))).state == m["status"]
    ensures "status" !in m ==> Step(s, Reply(status, Doc(JObj(m)))).state == JStr("unknown")
  {
  }
}

=== FILE: http.dfy ===
/** HTTP as the modelled code sees it: the requests it builds, and the
    outcome of sending one, with the network itself abstracted away. */
module Http {
  import opened Optional
  import opened Py
  import opened Json

  datatype Method = GET | POST

  /** A request as handed to the HTTP library. Headers and form fields keep
      the order of the Python dict literals that build them. `credentials`
      is the `(username, password)` pair of the requests library's `auth=`
      argument; the library, not the modelled code, turns it into a header. */
  datatype Request = Request(
    verb: Method,
    url: string,
    headers: seq<(string, string)>,
    form: seq<(string, string)>,
    credentials: Option<(string, string)>)

  /** The value of the first field with the given name. */
  function Lookup(fields: seq<(string, string)>, name: string): (r: Option<string>)
    ensures r.Some? <==> exists i :: 0 <= i < |fields| && fields[i].0 == name
    ensures r.Some? ==> exists i :: 0 <= i < |fields| && fields[i] == (name, r.value)
  {
    if fields == [] then None
    else if fields[0].0 == name then Some(fields[0].1)
    else Lookup(fields[1..], name)
  }

  /** A field that no earlier field shadows is the one `Lookup` finds. */
  lemma LookupFirst(fields: seq<(string, string)>, i: nat, name: string)
    requires i < |fields| && fields[i].0 == name
    requires forall j :: 0 <= j < i ==> fields[j].0 != name
    ensures Lookup(fields, name) == Some(fields[i].1)
  {
    if i > 0 {
      LookupFirst(fields[1..], i - 1, name);
    }
  }

  /** What the response body holds once read as text: nothing but
      whitespace, a JSON document, or something that is not JSON. */
  datatype Payload = Blank | Doc(value: Value) | Malformed

  /** A response body, and whether its Content-Type is `application/json`. */
  datatype Body = Body(jsonContentType: bool, payload: Payload)

  /** The result of sending a request: a transport failure before any
      response, or a response with its status code and body. */
  datatype Outcome = Failed(failure: Failure) | Response(status: int, body: Body)

  /** aiohttp's `await response.json()`: it first insists on a JSON content
      type (ContentTypeError, an `aiohttp.ClientError`, otherwise), returns
      None for a blank body, and parses the rest with `json.loads`. */
  function AiohttpJson(b: Body): (r: Result<Value>)
    ensures r.Ok? <==> b.jsonContentType && !b.payload.Malformed?
    ensures r.Ok? ==> r.value == (if b.payload.Doc? then b.payload.value else JNull)
    ensures r.Raise? ==> (r.exc.IsClientError() <==> !b.jsonContentType)
    ensures r.Raise? && b.jsonContentType ==> r.exc == JSONDecodeError
  {
    if !b.jsonContentType then Raise(ContentTypeError)
    else
      match b.payload
      case Blank => Ok(JNull)
      case Doc(v) => Ok(v)
      case Malformed => Raise(JSONDecodeError)
  }

  /** `json.loads(await response.text())`: no content-type check, and a blank
      body is a decode error like any other non-JSON text. */
  function LoadsText(b: Body): (r: Result<Value>)
    ensures r.Ok? <==> b.payload.Doc?
    ensures r.Ok? ==> r.value == b.payload.value
    ensures r.Raise? ==> r.exc == JSONDecodeError
  {
    match b.payload
    case Doc(v) => Ok(v)
    case _ => Raise(JSONDecodeError)
  }

  /** A JSON-typed body whose text is the given document. */
  function JsonBody(v: Value): Body {
    Body(true, Doc(v))
  }

  /** The two readers agree exactly on JSON-typed bodies that are not blank:
      on a blank body only `response.json()` succeeds (with None), and on any
      other content type only `response.json()` raises a ClientError. */
  lemma ReadersAgree(b: Body)
    ensures AiohttpJson(b) == LoadsText(b) <==> b.jsonContentType && !b.payload.Blank?
    ensures b.jsonContentType && b.payload.Doc? ==> AiohttpJson(b) == LoadsText(b) == Ok(b.payload.value)
  {
  }
}

=== FILE: json.dfy ===
/** The values Python's `json` module produces, and the few dict/str
    operations the modelled code applies to them. */
module Json {
  import opened Py
  import opened Optional

  /** A decoded JSON document. Objects are Python dicts keyed by string;
      numbers are integers (see README, "Left out"). */
  datatype Value =
    | JNull
    | JBool(b: bool)
    | JInt(i: int)
    | JStr(s: string)
    | JArr(items: seq<Value>)
    | JObj(fields: map<string, Value>)

  /** `d.get(key, default)`: the stored value when the key is present (even
      when that value is null), the default when it is absent, and
      AttributeError when `d` is not a dict. */
  function Get(d: Value, key: string, default: Value): (r: Result<Value>)
    ensures r.Raise? <==> !d.JObj?
    ensures r.Raise? ==> r.exc == AttributeError
    ensures d.JObj? && key in d.fields ==> r == Ok(d.fields[key])
    ensures d.JObj? && key !in d.fields ==> r == Ok(default)
  {
    match d
    case JObj(m) => Ok(if key in m then m[key] else default)
    case _ => Raise(AttributeError)
  }

  /** `d[key]` with a string key: KeyError on a dict without the key, and
      TypeError on anything that is not a dict (a list or str needs an
      integer index; null, bools and ints are not subscriptable). */
  function Subscript(d: Value, key: string): (r: Result<Value>)
    ensures r.Ok? <==> d.JObj? && key in d.fields
    ensures r.Ok? ==> r.value == d.fields[key]
    ensures r.Raise? ==> r.exc == (if d.JObj? then KeyError else TypeError)
  {
    match d
    case JObj(m) => if key in m then Ok(m[key]) else Raise(KeyError)
    case _ => Raise(TypeError)
  }

  /** Python truthiness of a decoded value. */
  predicate Truthy(v: Value) {
    match v
    case JNull => false
    case JBool(b) => b
    case JInt(i) => i != 0
    case JStr(s) => s != ""
    case JArr(xs) => xs != []
    case JObj(m) => m != map[]
  }

  /** The decimal digits of a natural number, most significant first. */
  function Digits(n: nat): (r: string)
    ensures r != []
    ensures forall i :: 0 <= i < |r| ==> '0' <= r[i] <= '9'
  {
    if n < 10 then [Digit(n)] else Digits(n / 10) + [Digit(n % 10)]
  }

  function Digit(d: nat): (c: char)
    requires d < 10
    ensures '0' <= c <= '9'
  {
    ('0' as int + d) as char
  }

  /** The value of a string of decimal digits, read left to right. */
  function DigitsValue(s: string): int
    decreases |s|
  {
    if s == [] then 0 else 10 * DigitsValue(s[..|s| - 1]) + (s[|s| - 1] as int - '0' as int)
  }

  /** Reading the digits back gives the number, and there is no leading zero. */
  lemma {:induction false} DigitsReadBack(n: nat)
    ensures DigitsValue(Digits(n)) == n
    ensures n > 0 ==> Digits(n)[0] != '0'
    ensures n == 0 ==> Digits(n) == "0"
  {
    if n >= 10 {
      DigitsReadBack(n / 10);
      var s := Digits(n);
      assert s[..|s| - 1] == Digits(n / 10);
    }
  }

  /** Python's canonical decimal form of an integer: an optional `-`, then
      digits without a leading zero, and no `-0`. Gives the integer it
      denotes, or None for any other text. */
  function ReadInt(s: string): Option<int> {
    if s != [] && s[0] == '-' then
      if IsDecimal(s[1..]) && s[1] != '0' then Some(-DigitsValue(s[1..])) else None
    else if IsDecimal(s) then Some(DigitsValue(s))
    else None
  }

  /** A non-empty digit string whose first digit is not a redundant zero. */
  predicate IsDecimal(s: string) {
    && s != []
    && (forall i :: 0 <= i < |s| ==> '0' <= s[i] <= '9')
    && (s[0] != '0' || |s| == 1)
  }

  /** `str(v)`, as an f-string renders an interpolated value. A string is
      rendered as it is, and an integer in its canonical decimal form. Null
      and booleans render as Python spells them; lists and dicts (whose
      Python repr the model does not reproduce) render as a bracket
      stand-in. */
  function Str(v: Value): (r: string)
    ensures v.JStr? ==> r == v.s
    ensures v.JInt? ==> ReadInt(r) == Some(v.i)
  {
    match v
    case JNull => "None"
    case JBool(b) => if b then "True" else "False"
    case JInt(i) =>
      var n: nat := if i < 0 then -i else i;
      DigitsReadBack(n);
      if i < 0 then
        assert ("-" + Digits(n))[1..] == Digits(n);
        "-" + Digits(n)
      else Digits(n)
    case JStr(s) => s
    case JArr(_) => "[...]"
    case JObj(_) => "{...}"
  }
}

=== FILE: ohip_auth.dfy ===
/** Token acquisition of the OHIP integration: the configuration entry, the
    OAuth token request with its Basic credentials, and `authenticate`, which
    turns the token endpoint's outcome into a token or `""`. */
module OhipAuth {
  import opened Optional
  import opened Py
  import opened Json
  import opened Http
  import Base64
  import Utf8

  /** The configuration entry's data, every field a string (the config flow
      requires all seven). */
  datatype Config = Config(
    host: string,
    username: string,
    password: string,
    appKey: string,
    hotelId: string,
    clientId: string,
    clientSecret: string)

  const TokenPath := "/oauth/v1/tokens"

  /** The basic-credentials payload: base 64 (section 4 of RFC 4648) of the
      UTF-8 bytes of `clientId:clientSecret`. */
  function Credentials(clientId: string, clientSecret: string): string {
    Base64.Encode(Utf8.Encode(clientId + ":" + clientSecret))
  }

  /** The Authorization header of the token request, in the Basic scheme of
      section 2 of RFC 7617. */
  function BasicAuthorization(clientId: string, clientSecret: string): string {
    "Basic " + Credentials(clientId, clientSecret)
  }

  /** The form-encoded POST that asks for a token. */
  function TokenRequest(c: Config): (r: Request)
    ensures r.verb == POST && r.credentials == None
    ensures |r.url| == |c.host| + |TokenPath|
    ensures r.url[..|c.host|] == c.host && r.url[|c.host|..] == TokenPath
  {
    Request(POST, c.host + TokenPath, TokenHeaders(c), TokenForm(c), None)
  }

  function TokenHeaders(c: Config): seq<(string, string)> {
    [ ("Authorization", BasicAuthorization(c.clientId, c.clientSecret)),
      ("Accept", "*/*"),
      ("Content-Type", "application/x-www-form-urlencoded"),
      ("x-app-key", c.appKey) ]
  }

  function TokenForm(c: Config): seq<(string, string)> {
    [("username", c.username), ("password", c.password), ("grant_type", "password")]
  }

  /** The token request authenticates the client with Basic credentials and
      the application with its key, and is form-encoded. */
  lemma TokenRequestHeaders(c: Config)
    ensures var h := TokenRequest(c).headers;
            && Lookup(h, "Authorization") == Some(BasicAuthorization(c.clientId, c.clientSecret))
            && Lookup(h, "x-app-key") == Some(c.appKey)
            && Lookup(h, "Content-Type") == Some("application/x-www-form-urlencoded")
  {
    var h := TokenHeaders(c);
    LookupFirst(h, 2, "Content-Type");
    LookupFirst(h, 3, "x-app-key");
  }

  /** The token request's form carries exactly the user's credentials and the
      password grant type. */
  lemma TokenRequestForm(c: Config)
    ensures var f := TokenRequest(c).form;
            && |f| == 3
            && Lookup(f, "username") == Some(c.username)
            && Lookup(f, "password") == Some(c.password)
            && Lookup(f, "grant_type") == Some("password")
  {
    LookupFirst(TokenForm(c), 2, "grant_type");
  }

  /** The outcomes `authenticate` does not handle: a transport failure that
      is not an `aiohttp.ClientError`, and a 200 with a JSON content type whose
      body is malformed (JSONDecodeError), or blank or not an object (the
      `.get` raises AttributeError). */
  predicate Escapes(o: Outcome) {
    || (o.Failed? && !o.failure.clientError)
    || (&& o.Response? && o.status == 200 && o.body.jsonContentType
        && !(o.body.payload.Doc? && o.body.payload.value.JObj?))
  }

  /** `authenticate`: the token when the endpoint answers 200 with a JSON
      object whose `access_token` is truthy, and `""` on every failure it
      handles (a non-200 status, a 200 without a usable token, an
      `aiohttp.ClientError`, which includes a non-JSON content type). A
      transport failure that is not a ClientError, a 200 body that is not
      JSON, or a JSON body that is not an object is not handled and raises
      out of it. */
  function Authenticate(o: Outcome): (r: Result<Value>)
    ensures o.Failed? ==> r == (if o.failure.clientError then Ok(JStr("")) else Raise(Transport(o.failure)))
    ensures o.Response? && o.status != 200 ==> r == Ok(JStr(""))
    ensures r.Ok? ==> r.value == JStr("") || Truthy(r.value)
    ensures r.Ok? && r.value != JStr("") ==>
              o.Response? && o.status == 200 && o.body.jsonContentType && o.body.payload.Doc?
              && o.body.payload.value.JObj? && "access_token" in o.body.payload.value.fields
              && o.body.payload.value.fields["access_token"] == r.value
    ensures o.Response? && o.status == 200 && o.body.jsonContentType && o.body.payload.Doc?
            && o.body.payload.value.JObj? ==>
              var m := o.body.payload.value.fields;
              && ("access_token" in m && Truthy(m["access_token"]) ==> r == Ok(m["access_token"]))
              && (!("access_token" in m && Truthy(m["access_token"])) ==> r == Ok(JStr("")))
    ensures r.Raise? <==> Escapes(o)
    ensures r.Raise? ==>
              r.exc == (if o.Failed? then Transport(o.failure)
                        else if o.body.payload.Malformed? then JSONDecodeError
                        else AttributeError)
  {
    match o
    case Failed(f) =>
      if f.clientError then Ok(JStr("")) else Raise(Transport(f))
    case Response(status, body) =>
      if status != 200 then Ok(JStr(""))
      else
        match AiohttpJson(body)
        case Raise(e) => if e.IsClientError() then Ok(JStr("")) else Raise(e)
        case Ok(data) =>
          var token :- Get(data, "access_token", JNull);
          Ok(if Truthy(token) then token else JStr(""))
  }

  /** The token endpoint granted the non-empty string token `t`: a 200
      JSON-typed response whose object carries `access_token: t`. */
  predicate Grants(o: Outcome, t: string) {
    && o.Response? && o.status == 200 && o.body.payload.Doc?
    && o == Response(200, JsonBody(o.body.payload.value))
    && o.body.payload.value.JObj?
    && "access_token" in o.body.payload.value.fields
    && o.body.payload.value.fields["access_token"] == JStr(t)
    && t != ""
  }

  /** `authenticate` returns a non-empty string token exactly when the
      endpoint granted that token. */
  lemma AuthenticateTokenExactly(o: Outcome, t: string)
    ensures Authenticate(o) == Ok(JStr(t)) && t != "" <==> Grants(o, t)
  {
    if Grants(o, t) {
      assert AiohttpJson(o.body) == Ok(o.body.payload.value);
    }
  }

  /** The handled failures of `authenticate` all come out as `""`, never as
      an exception: a 200 whose object has no truthy `access_token`, and a 200
      with a non-JSON content type. */
  lemma AuthenticateHandledFailures(m: map<string, Value>, b: Body)
    ensures "access_token" !in m ==> Authenticate(Response(200, JsonBody(JObj(m)))) == Ok(JStr(""))
    ensures "access_token" in m && !Truthy(m["access_token"]) ==>
              Authenticate(Response(200, JsonBody(JObj(m)))) == Ok(JStr(""))
    ensures !b.jsonContentType ==> Authenticate(Response(200, b)) == Ok(JStr(""))
  {
  }

  /** The token request's credentials decode, per section 4 of RFC 4648, to
      the UTF-8 bytes of the client id, the colon byte 0x3A and the UTF-8
      bytes of the secret; they have the encoded length 4 * ceil(n / 3) over
      the base 64 alphabet, with `=` only in the last two places. */
  lemma CredentialsEncoding(clientId: string, clientSecret: string)
    ensures var bytes := Utf8.Encode(clientId + ":" + clientSecret);
            var p := Credentials(clientId, clientSecret);
            && bytes == Utf8.Encode(clientId) + [0x3A] + Utf8.Encode(clientSecret)
            && Base64.Decode(p) == Some(bytes)
            && |p| == 4 * ((|bytes| + 2) / 3)
            && forall i :: 0 <= i < |p| ==> Base64.IsSymbol(p[i]) || (p[i] == Base64.Pad && i >= |p| - 2)
  {
    var bytes := Utf8.Encode(clientId + ":" + clientSecret);
    var p := Base64.Encode(bytes);
    assert Credentials(clientId, clientSecret) == p;
    CredentialsBytes(clientId, clientSecret);
    Base64.DecodeEncode(bytes);
    Base64.EncodeLength(bytes);
    Base64.EncodeAlphabet(bytes);
  }

  /** The colon is one byte, 0x3A, between the two encoded halves. */
  lemma CredentialsBytes(clientId: string, clientSecret: string)
    ensures Utf8.Encode(clientId + ":" + clientSecret) == Utf8.Encode(clientId) + [0x3A] + Utf8.Encode(clientSecret)
  {
    Utf8.EncodeAppend(clientId + ":", clientSecret);
    Utf8.EncodeAppend(clientId, ":");
    Utf8.EncodeAscii(":");
  }

  /** The text before the first colon and the text after it. */
  function SplitAtColon(s: string): (r: Option<(string, string)>)
    ensures r.Some? <==> ':' in s
    ensures r.Some? ==> s == r.value.0 + ":" + r.value.1 && ':' !in r.value.0
  {
    if s == [] then None
    else if s[0] == ':' then Some(([], s[1..]))
    else match SplitAtColon(s[1..])
      case None => None
      case Some((a, b)) => Some(([s[0]] + a, b))
  }

  /** How a server reads Basic credentials back (section 2 of RFC 7617):
      strip the scheme, decode base 64, decode UTF-8, split at the first
      colon. */
  function ParseBasicAuthorization(h: string): Option<(string, string)> {
    if |h| < 6 || h[..6] != "Basic " then None
    else
      match Base64.Decode(h[6..])
      case None => None
      case Some(bytes) =>
        match Utf8.Decode(bytes)
        case None => None
        case Some(text) => SplitAtColon(text)
  }

  lemma {:induction false} SplitAtColonJoin(a: string, b: string)
    requires ':' !in a
    ensures SplitAtColon(a + ":" + b) == Some((a, b))
  {
    if a != [] {
      assert (a + ":" + b)[1..] == a[1..] + ":" + b;
      SplitAtColonJoin(a[1..], b);
      assert [a[0]] + a[1..] == a;
    } else {
      assert a + ":" + b == [':'] + b;
    }
  }

  /** The header round-trips: a server reading it gets the client id and
      secret back, provided the id has no colon (RFC 7617 rules a colon out of
      the user-id; with one, the split lands inside the id). */
  lemma BasicAuthorizationRoundTrip(clientId: string, clientSecret: string)
    requires ':' !in clientId
    ensures ParseBasicAuthorization(BasicAuthorization(clientId, clientSecret)) == Some((clientId, clientSecret))
  {
    var text := clientId + ":" + clientSecret;
    var h := BasicAuthorization(clientId, clientSecret);
    assert h[..6] == "Basic " && h[6..] == Credentials(clientId, clientSecret);
    Base64.DecodeEncode(Utf8.Encode(text));
    Utf8.DecodeEncode(text);
    SplitAtColonJoin(clientId, clientSecret);
  }
}

=== FILE: ohip_rooms.dfy ===
/** One `loaddata` cycle of the OHIP integration: fetch the hotel's rooms
    with the bearer token, pick the room list out of the decoded body, and
    build one room sensor and one occupancy binary sensor per room. Every
    cycle builds fresh entity lists; nothing is remembered between cycles. */
module OhipRooms {
  import opened Optional
  import opened Py
  import opened Json
  import opened Http
  import opened OhipAuth

  const RoomsPrefix := "/fof/v1/hotels/"
  const RoomsSuffix := "/rooms"

  /** The GET for the hotel's room details. The token goes into the bearer
      header as it is, even when `authenticate` gave up and returned `""`. */
  function RoomsRequest(c: Config, token: string): (r: Request)
    ensures r.verb == GET && r.form == [] && r.credentials == None
    ensures Lookup(r.headers, "Authorization") == Some("Bearer " + token)
    ensures Lookup(r.headers, "x-hotelid") == Some(c.hotelId)
    ensures Lookup(r.headers, "x-app-key") == Some(c.appKey)
    ensures Lookup(r.headers, "Accept") == Some("application/json")
    ensures HotelOfRoomsUrl(c.host, r.url) == Some(c.hotelId)
  {
    var headers := [
      ("Accept", "application/json"),
      ("Content-Type", "application/json"),
      ("Authorization", "Bearer " + token),
      ("x-hotelid", c.hotelId),
      ("x-app-key", c.appKey)];
    LookupFirst(headers, 2, "Authorization");
    LookupFirst(headers, 3, "x-hotelid");
    LookupFirst(headers, 4, "x-app-key");
    var url := c.host + RoomsPrefix + c.hotelId + RoomsSuffix;
    RoomsUrlNamesHotel(c.host, c.hotelId);
    Request(GET, url, headers, [], None)
  }

  /** Reads a rooms URL back: the hotel id between
      `{host}/fof/v1/hotels/` and `/rooms`, if the URL has that shape. */
  function HotelOfRoomsUrl(host: string, url: string): Option<string> {
    var lo := |host| + |RoomsPrefix|;
    if |url| >= lo + |RoomsSuffix| && url[..lo] == host + RoomsPrefix
       && url[|url| - |RoomsSuffix|..] == RoomsSuffix
    then Some(url[lo..|url| - |RoomsSuffix|])
    else None
  }

  lemma RoomsUrlNamesHotel(host: string, hotelId: string)
    ensures HotelOfRoomsUrl(host, host + RoomsPrefix + hotelId + RoomsSuffix) == Some(hotelId)
  {
    var url := host + RoomsPrefix + hotelId + RoomsSuffix;
    var lo := |host| + |RoomsPrefix|;
    assert url[..lo] == host + RoomsPrefix;
    assert url[|url| - |RoomsSuffix|..] == RoomsSuffix;
    assert url[lo..|url| - |RoomsSuffix|] == hotelId;
  }

  /** The room URLs of two hotels on the same host differ. */
  lemma RoomsUrlInjective(c: Config, d: Config, t: string, u: string)
    requires c.host == d.host && c.hotelId != d.hotelId
    ensures RoomsRequest(c, t).url != RoomsRequest(d, u).url
  {
  }

  /** The request sent after `authenticate`: `"Bearer " + token` raises
      TypeError unless the token is a str. */
  function RoomsFetch(c: Config, auth: Outcome): (r: Result<Request>)
    ensures r.Ok? ==> Authenticate(auth).Ok? && Authenticate(auth).value.JStr?
                      && r.value == RoomsRequest(c, Authenticate(auth).value.s)
    ensures Authenticate(auth).Raise? ==> r == Raise(Authenticate(auth).exc)
    ensures Authenticate(auth).Ok? && !Authenticate(auth).value.JStr? ==> r == Raise(TypeError)
    ensures Authenticate(auth).Ok? && Authenticate(auth).value.JStr? ==>
              r == Ok(RoomsRequest(c, Authenticate(auth).value.s))
  {
    var token :- Authenticate(auth);
    match token
    case JStr(t) => Ok(RoomsRequest(c, t))
    case _ => Raise(TypeError)
  }

  /** There is no check on the token: whenever `authenticate` gives up with
      `""` (a ClientError, a non-200 status, a 200 without a truthy token),
      the rooms request is still sent, with the bare `"Bearer "` header. */
  lemma BearerWithoutToken(c: Config, auth: Outcome)
    requires Authenticate(auth) == Ok(JStr(""))
    ensures RoomsFetch(c, auth).Ok?
    ensures Lookup(RoomsFetch(c, auth).value.headers, "Authorization") == Some("Bearer ")
  {
    assert "Bearer " + "" == "Bearer ";
  }

  /** `for room in rooms`: a list gives its items; an empty str or dict gives
      none; a non-empty str or dict yields strings, and subscripting the first
      of them with `'roomId'` raises TypeError; null, bools and ints are not
      iterable (TypeError). */
  function Rooms(v: Value): (r: Result<seq<Value>>)
    ensures r.Ok? ==> v.JArr? || v == JStr("") || v == JObj(map[])
    ensures v.JArr? ==> r == Ok(v.items)
    ensures v == JStr("") || v == JObj(map[]) ==> r == Ok([])
    ensures r.Raise? ==> r.exc == TypeError
  {
    match v
    case JArr(xs) => Ok(xs)
    case JStr(s) => if s == "" then Ok([]) else Raise(TypeError)
    case JObj(m) => if m == map[] then Ok([]) else Raise(TypeError)
    case _ => Raise(TypeError)
  }

  /** `data.get("hotelRoomsDetails", {}).get("room", [])`, iterated. */
  function RoomList(data: Value): (r: Result<seq<Value>>)
    ensures r.Raise? ==> r.exc == AttributeError || r.exc == TypeError
  {
    var details :- Get(data, "hotelRoomsDetails", JObj(map[]));
    var rooms :- Get(details, "room", JArr([]));
    Rooms(rooms)
  }

  /** The room list is `body.hotelRoomsDetails.room` when both keys exist, and
      empty when either is missing. */
  lemma RoomListPath(data: Value)
    requires data.JObj?
    ensures "hotelRoomsDetails" !in data.fields ==> RoomList(data) == Ok([])
    ensures ("hotelRoomsDetails" in data.fields && data.fields["hotelRoomsDetails"].JObj?
             && "room" !in data.fields["hotelRoomsDetails"].fields) ==> RoomList(data) == Ok([])
    ensures ("hotelRoomsDetails" in data.fields && data.fields["hotelRoomsDetails"].JObj?
             && "room" in data.fields["hotelRoomsDetails"].fields
             && data.fields["hotelRoomsDetails"].fields["room"].JArr?)
            ==> RoomList(data) == Ok(data.fields["hotelRoomsDetails"].fields["room"].items)
    ensures "hotelRoomsDetails" in data.fields && !data.fields["hotelRoomsDetails"].JObj?
            ==> RoomList(data) == Raise(AttributeError)
  {
  }

  /** A room sensor: its name, the room id it reports as the `room_id`
      attribute, and its state. */
  datatype RoomSensor = RoomSensor(name: string, roomId: Value, state: Value)

  /** A room's occupancy binary sensor. */
  datatype OccupancySensor = OccupancySensor(name: string, roomId: Value, isOn: bool)

  /** `room.get("housekeeping", {}).get("roomStatus", {}).get("frontOfficeStatus", default)` */
  function FrontOfficeStatus(room: Value, default: Value): Result<Value> {
    var housekeeping :- Get(room, "housekeeping", JObj(map[]));
    var roomStatus :- Get(housekeeping, "roomStatus", JObj(map[]));
    Get(roomStatus, "frontOfficeStatus", default)
  }

  /** The room record carries `housekeeping.roomStatus.frontOfficeStatus`
      with value `v`. */
  predicate HasStatus(room: Value, v: Value) {
    && room.JObj? && "housekeeping" in room.fields
    && var h := room.fields["housekeeping"];
    && h.JObj? && "roomStatus" in h.fields
    && var s := h.fields["roomStatus"];
    && s.JObj? && "frontOfficeStatus" in s.fields
    && s.fields["frontOfficeStatus"] == v
  }

  /** Every step of the status path that is present is a dict, so the
      chained `.get` cannot raise. */
  predicate WellShaped(room: Value) {
    && room.JObj?
    && ("housekeeping" in room.fields ==>
          var h := room.fields["housekeeping"];
          && h.JObj?
          && ("roomStatus" in h.fields ==> h.fields["roomStatus"].JObj?))
  }

  /** The chained lookup yields the stored status when the path exists and
      the default when a key is missing; it raises AttributeError exactly when
      the room, or a step present on the path, is not a dict. */
  lemma FrontOfficeStatusSpec(room: Value, default: Value)
    ensures FrontOfficeStatus(room, default).Ok? <==> WellShaped(room)
    ensures FrontOfficeStatus(room, default).Raise? ==> FrontOfficeStatus(room, default).exc == AttributeError
    ensures forall v :: HasStatus(room, v) ==> FrontOfficeStatus(room, default) == Ok(v)
    ensures WellShaped(room) && (forall v :: !HasStatus(room, v)) ==> FrontOfficeStatus(room, default) == Ok(default)
  {
    if WellShaped(room) && (forall v :: !HasStatus(room, v)) {
      var h := if "housekeeping" in room.fields then room.fields["housekeeping"] else JObj(map[]);
      if "roomStatus" in h.fields {
        var s := h.fields["roomStatus"];
        if "frontOfficeStatus" in s.fields {
          assert HasStatus(room, s.fields["frontOfficeStatus"]);
        }
      }
    }
  }

  /** The name both entities of a room start from. */
  function RoomName(hotelId: string, roomId: Value): string {
    hotelId + " Room " + Str(roomId)
  }

  /** `HotelRoomSensor(hotelid, room)`: the room id is subscripted (KeyError
      when the record lacks it, TypeError when the record is not a dict), and
      the state defaults to "Unknown". */
  function NewRoomSensor(hotelId: string, room: Value): (r: Result<RoomSensor>)
    ensures r.Ok? ==> room.JObj? && "roomId" in room.fields && r.value.roomId == room.fields["roomId"]
    ensures r.Raise? ==> r.exc == KeyError || r.exc == TypeError || r.exc == AttributeError
  {
    var roomId :- Subscript(room, "roomId");
    var state :- FrontOfficeStatus(room, JStr("Unknown"));
    Ok(RoomSensor(RoomName(hotelId, roomId), roomId, state))
  }

  /** `HotelRoomStatusBinarySensor(hotelid, room)`: on when the status, which
      defaults to "Vacant", is not "Vacant". */
  function NewOccupancySensor(hotelId: string, room: Value): (r: Result<OccupancySensor>)
    ensures r.Ok? ==> room.JObj? && "roomId" in room.fields && r.value.roomId == room.fields["roomId"]
    ensures r.Raise? ==> r.exc == KeyError || r.exc == TypeError || r.exc == AttributeError
  {
    var roomId :- Subscript(room, "roomId");
    var status :- FrontOfficeStatus(room, JStr("Vacant"));
    Ok(OccupancySensor(RoomName(hotelId, roomId) + " Occupied", roomId, status != JStr("Vacant")))
  }

  /** A room sensor exists exactly for a dict record with a `roomId` whose
      status path is well shaped; it is named `{hotelid} Room {roomId}`,
      carries the room id, and reports the front-office status, or "Unknown"
      when the path is missing. */
  lemma RoomSensorSpec(hotelId: string, room: Value)
    ensures NewRoomSensor(hotelId, room).Ok? <==> WellShaped(room) && "roomId" in room.fields
    ensures room.JObj? && "roomId" !in room.fields ==> NewRoomSensor(hotelId, room) == Raise(KeyError)
    ensures !room.JObj? ==> NewRoomSensor(hotelId, room) == Raise(TypeError)
    ensures NewRoomSensor(hotelId, room).Ok? ==>
              var s := NewRoomSensor(hotelId, room).value;
              && s.roomId == room.fields["roomId"]
              && s.name == hotelId + " Room " + Str(room.fields["roomId"])
              && (forall v :: HasStatus(room, v) ==> s.state == v)
              && ((forall v :: !HasStatus(room, v)) ==> s.state == JStr("Unknown"))
  {
    FrontOfficeStatusSpec(room, JStr("Unknown"));
  }

  /** The occupancy sensor is on exactly when the front-office status exists
      and is not "Vacant": a missing status gives off, although the room
      sensor reports "Unknown" for the same room. */
  lemma OccupancySensorSpec(hotelId: string, room: Value)
    ensures NewOccupancySensor(hotelId, room).Ok? <==> NewRoomSensor(hotelId, room).Ok?
    ensures NewOccupancySensor(hotelId, room).Raise? ==>
              NewOccupancySensor(hotelId, room).exc == NewRoomSensor(hotelId, room).exc
    ensures NewOccupancySensor(hotelId, room).Ok? ==>
              var b := NewOccupancySensor(hotelId, room).value;
              var s := NewRoomSensor(hotelId, room).value;
              && b.roomId == s.roomId
              && b.name == s.name + " Occupied"
              && (b.isOn <==> exists v :: HasStatus(room, v) && v != JStr("Vacant"))
              && ((forall v :: !HasStatus(room, v)) ==> !b.isOn && s.state == JStr("Unknown"))
  {
    FrontOfficeStatusSpec(room, JStr("Unknown"));
    FrontOfficeStatusSpec(room, JStr("Vacant"));
  }

  /** The outcome of one cycle: `loaddata`'s return value and the entities it
      handed to the sensor and binary-sensor platforms. */
  datatype Cycle = Cycle(ok: bool, sensors: seq<RoomSensor>, occupancy: seq<OccupancySensor>)

  /** The statements inside `loaddata`'s `try`, with exceptions propagating.
      The status of the rooms response is never looked at. */
  function Attempt(c: Config, auth: Outcome, fetch: Outcome): Result<Cycle> {
    var _ :- RoomsFetch(c, auth);
    AfterToken(c.hotelId, fetch)
  }

  /** The statements after the rooms request is built: read the response,
      decode it, build the entities. */
  function AfterToken(hotelId: string, fetch: Outcome): Result<Cycle> {
    var body :- ResponseText(fetch);
    Process(hotelId, body)
  }

  /** `response.text()` of the rooms response, whatever its status; a
      transport failure raises its exception. */
  function ResponseText(fetch: Outcome): Result<Body> {
    match fetch
    case Failed(f) => Raise(Transport(f))
    case Response(_, b) => Ok(b)
  }

  /** Decoding the rooms body and building the entities. */
  function Process(hotelId: string, body: Body): Result<Cycle> {
    var data :- LoadsText(body);
    var rooms :- RoomList(data);
    var sensors :- Collect(rooms, room => NewRoomSensor(hotelId, room));
    var occupancy :- Collect(rooms, room => NewOccupancySensor(hotelId, room));
    Ok(Cycle(true, sensors, occupancy))
  }

  /** The exceptions `loaddata`'s handler catches. */
  predicate Handled(e: Exception) {
    e.JSONDecodeError? || e.IsOSError()
  }

  /** One room sensor and one occupancy sensor per room, in list order, each
      built from its room record and carrying that record's `roomId`. */
  predicate PerRoom(hotelId: string, rooms: seq<Value>, cy: Cycle) {
    && |cy.sensors| == |rooms| && |cy.occupancy| == |rooms|
    && forall i :: 0 <= i < |rooms| ==>
         && rooms[i].JObj? && "roomId" in rooms[i].fields
         && Ok(cy.sensors[i]) == NewRoomSensor(hotelId, rooms[i])
         && Ok(cy.occupancy[i]) == NewOccupancySensor(hotelId, rooms[i])
         && cy.sensors[i].roomId == rooms[i].fields["roomId"]
         && cy.occupancy[i].roomId == rooms[i].fields["roomId"]
  }

  /** `authenticate` returned a str, the only kind of token that
      `"Bearer " + token` accepts, so the rooms request gets built. */
  predicate StringToken(auth: Outcome) {
    Authenticate(auth).Ok? && Authenticate(auth).value.JStr?
  }

  /** The rooms response arrived and every step after it can complete: the
      text is JSON, the room list can be read out of it, and every room
      record is a dict with a `roomId` and a well-shaped status path. */
  predicate CompleteFetch(fetch: Outcome) {
    && fetch.Response? && fetch.body.payload.Doc?
    && RoomList(fetch.body.payload.value).Ok?
    && var rooms := RoomList(fetch.body.payload.value).value;
    && forall i :: 0 <= i < |rooms| ==> WellShaped(rooms[i]) && "roomId" in rooms[i].fields
  }

  /** The failures `loaddata`'s handler turns into `False`: a handled
      exception out of `authenticate`, a rooms fetch failing with an OSError,
      or a rooms body that is not JSON. */
  predicate HandledFailure(auth: Outcome, fetch: Outcome) {
    || (Authenticate(auth).Raise? && Handled(Authenticate(auth).exc))
    || (&& StringToken(auth)
        && ((fetch.Failed? && fetch.failure.osError) || (fetch.Response? && !fetch.body.payload.Doc?)))
  }

  /** `loaddata`, given the token endpoint's and the rooms endpoint's
      outcomes: `False` with no entities when a handled exception occurs,
      `True` with one room sensor and one occupancy sensor per room, in list
      order, when the cycle completes; any other exception escapes. */
  function LoadData(c: Config, auth: Outcome, fetch: Outcome): (r: Result<Cycle>)
    ensures r.Raise? ==> !Handled(r.exc)
    ensures r.Ok? && r.value.ok <==> StringToken(auth) && CompleteFetch(fetch)
    ensures r.Ok? && !r.value.ok <==> HandledFailure(auth, fetch)
    ensures r.Ok? && !r.value.ok ==> r.value.sensors == [] && r.value.occupancy == []
    ensures r.Ok? && r.value.ok ==>
              && StringToken(auth)
              && fetch.Response? && fetch.body.payload.Doc?
              && RoomList(fetch.body.payload.value).Ok?
              && var rooms := RoomList(fetch.body.payload.value).value;
              && PerRoom(c.hotelId, rooms, r.value)
  {
    AttemptCases(c, auth, fetch);
    match Attempt(c, auth, fetch)
    case Raise(e) => if Handled(e) then Ok(Cycle(false, [], [])) else Raise(e)
    case Ok(cycle) =>
      OkCycleShape(c, auth, fetch);
      Ok(cycle)
  }

  /** The statements of the `try` complete exactly for a complete fetch
      after a usable token, and raise a handled exception exactly on a
      handled failure. */
  lemma AttemptCases(c: Config, auth: Outcome, fetch: Outcome)
    ensures Attempt(c, auth, fetch).Ok? <==> StringToken(auth) && CompleteFetch(fetch)
    ensures Attempt(c, auth, fetch).Raise? && Handled(Attempt(c, auth, fetch).exc)
            <==> HandledFailure(auth, fetch)
  {
    if StringToken(auth) {
      AfterTokenCases(c.hotelId, fetch);
    }
  }

  /** Once the request is built, the rest completes exactly for a complete
      fetch, and raises a handled exception exactly when the fetch fails with
      an OSError or the body is not JSON. */
  lemma AfterTokenCases(hotelId: string, fetch: Outcome)
    ensures AfterToken(hotelId, fetch).Ok? <==> CompleteFetch(fetch)
    ensures AfterToken(hotelId, fetch).Raise? && Handled(AfterToken(hotelId, fetch).exc)
            <==> (fetch.Failed? && fetch.failure.osError) || (fetch.Response? && !fetch.body.payload.Doc?)
  {
    if fetch.Response? {
      assert AfterToken(hotelId, fetch) == Process(hotelId, fetch.body);
      ProcessCases(hotelId, fetch.body);
    }
  }

  /** Processing a body completes exactly when the body is JSON with a
      readable room list of complete records; its only handled exception is
      the decode error of a body that is not JSON. */
  lemma ProcessCases(hotelId: string, body: Body)
    ensures Process(hotelId, body).Ok? <==> CompleteFetch(Response(200, body))
    ensures Process(hotelId, body).Raise? && Handled(Process(hotelId, body).exc) <==> !body.payload.Doc?
  {
    if body.payload.Doc? && RoomList(body.payload.value).Ok? {
      var rooms := RoomList(body.payload.value).value;
      forall i | 0 <= i < |rooms|
        ensures NewRoomSensor(hotelId, rooms[i]).Ok? <==> WellShaped(rooms[i]) && "roomId" in rooms[i].fields
        ensures NewOccupancySensor(hotelId, rooms[i]).Ok? <==> NewRoomSensor(hotelId, rooms[i]).Ok?
      {
        RoomSensorSpec(hotelId, rooms[i]);
        OccupancySensorSpec(hotelId, rooms[i]);
      }
    }
  }

  lemma OkCycleShape(c: Config, auth: Outcome, fetch: Outcome)
    requires Attempt(c, auth, fetch).Ok?
    ensures var cy := Attempt(c, auth, fetch).value;
            && cy.ok
            && RoomsFetch(c, auth).Ok?
            && fetch.Response? && fetch.body.payload.Doc?
            && RoomList(fetch.body.payload.value).Ok?
            && var rooms := RoomList(fetch.body.payload.value).value;
            && PerRoom(c.hotelId, rooms, cy)
  {
    assert AfterToken(c.hotelId, fetch) == Process(c.hotelId, fetch.body);
    ProcessShape(c.hotelId, fetch.body);
  }

  /** A processed body yields one entity of each kind per room, in order. */
  lemma ProcessShape(hotelId: string, body: Body)
    requires Process(hotelId, body).Ok?
    ensures var cy := Process(hotelId, body).value;
            && cy.ok
            && body.payload.Doc?
            && RoomList(body.payload.value).Ok?
            && var rooms := RoomList(body.payload.value).value;
            && PerRoom(hotelId, rooms, cy)
  {
    var rooms := RoomList(body.payload.value).value;
    var sensors := Collect(rooms, room => NewRoomSensor(hotelId, room));
    var occupancy := Collect(rooms, room => NewOccupancySensor(hotelId, room));
    assert Process(hotelId, body).value == Cycle(true, sensors.value, occupancy.value);
  }

  /** A rooms body that does not decode as JSON, or a rooms fetch that fails
      with an OSError, ends the cycle with `False` and no entities. */
  lemma LoadDataHandledFailures(c: Config, auth: Outcome, fetch: Outcome)
    requires RoomsFetch(c, auth).Ok?
    requires (fetch.Response? && !fetch.body.payload.Doc?) || (fetch.Failed? && fetch.failure.osError)
    ensures LoadData(c, auth, fetch) == Ok(Cycle(false, [], []))
  {
  }

  /** Errors raised by `authenticate` reach `loaddata`'s handler too: a 200
      token response whose JSON-typed body does not decode, or a timeout,
      makes the cycle return `False`. */
  lemma LoadDataAuthFailures(c: Config, b: Body, f: Failure, fetch: Outcome)
    requires b.jsonContentType && !b.payload.Doc? && !b.payload.Blank?
    requires f.osError && !f.clientError
    ensures LoadData(c, Response(200, b), fetch) == Ok(Cycle(false, [], []))
    ensures LoadData(c, Failed(f), fetch) == Ok(Cycle(false, [], []))
  {
  }

  /** A decoded body without the room path yields a successful cycle with no
      entities. */
  lemma LoadDataNoRooms(c: Config, auth: Outcome, status: int, m: map<string, Value>)
    requires RoomsFetch(c, auth).Ok?
    requires "hotelRoomsDetails" !in m
    ensures LoadData(c, auth, Response(status, JsonBody(JObj(m)))) == Ok(Cycle(true, [], []))
  {
    RoomListPath(JObj(m));
  }

  /** A room record without `roomId` makes the whole cycle raise KeyError,
      which the handler does not catch, wherever it stands in the list, as
      long as the records before it are complete. */
  lemma LoadDataMissingRoomId(c: Config, auth: Outcome, fetch: Outcome, i: nat)
    requires RoomsFetch(c, auth).Ok?
    requires fetch.Response? && fetch.body.payload.Doc?
    requires RoomList(fetch.body.payload.value).Ok?
    requires var rooms := RoomList(fetch.body.payload.value).value;
             && i < |rooms| && rooms[i].JObj? && "roomId" !in rooms[i].fields
             && forall j :: 0 <= j < i ==> WellShaped(rooms[j]) && "roomId" in rooms[j].fields
    ensures LoadData(c, auth, fetch) == Raise(KeyError)
  {
    var rooms := RoomList(fetch.body.payload.value).value;
    forall j | 0 <= j < i {
      RoomSensorSpec(c.hotelId, rooms[j]);
    }
    RoomSensorSpec(c.hotelId, rooms[i]);
    CollectFirstRaise(rooms, room => NewRoomSensor(c.hotelId, room), i);
  }

  /** The rooms response's status code plays no part: a 401 with a JSON body
      is processed like a 200. */
  lemma LoadDataIgnoresStatus(c: Config, auth: Outcome, s: int, t: int, b: Body)
    ensures LoadData(c, auth, Response(s, b)) == LoadData(c, auth, Response(t, b))
  {
    assert ResponseText(Response(s, b)) == ResponseText(Response(t, b));
  }
}

=== FILE: optional.dfy ===
/** An optional value, for the decoders, which may reject their input. */
module Optional {

  datatype Option<+T> = None | Some(value: T)
}

=== FILE: py.dfy ===
/** Python's exception flow, as far as the modelled code needs it.

    A Python call either returns a value or raises; `Result` records which, and
    Dafny's `:-` operator plays the role of an exception propagating to the
    caller. Only the exception classes that the modelled code raises or catches
    are distinguished.
 */
module Py {

  /** A failure of the transport library (aiohttp or requests) before any
      response arrived. Python's exception classes overlap: aiohttp's
      connection errors are both `aiohttp.ClientError` and `OSError`, while a
      bare timeout is an `OSError` but not a `ClientError`. */
  datatype Failure = Failure(clientError: bool, osError: bool)

  datatype Exception =
    | KeyError            // dict subscript with a missing key
    | TypeError           // subscript/iteration/concatenation on the wrong type
    | AttributeError      // `.get` on something that is not a dict
    | JSONDecodeError     // `json.loads` on text that is not JSON
    | ContentTypeError    // aiohttp's `response.json()` on a non-JSON content type
    | Transport(failure: Failure)
  {
    /** Whether an `except OSError` clause catches this exception. */
    predicate IsOSError() {
      Transport? && failure.osError
    }

    /** Whether an `except aiohttp.ClientError` clause catches this exception. */
    predicate IsClientError() {
      (Transport? && failure.clientError) || ContentTypeError?
    }
  }

  /** The outcome of a Python call: a returned value or a raised exception. */
  datatype Result<+T> = Ok(value: T) | Raise(exc: Exception) {

    predicate IsFailure() {
      Raise?
    }

    function PropagateFailure<U>(): Result<U>
      requires Raise?
    {
      Raise(exc)
    }

    function Extract(): T
      requires Ok?
    {
      value
    }
  }

  /** A list comprehension `[f(x) for x in xs]`: the results in order, or the
      exception of the first element for which `f` raises. */
  function Collect<X, T>(xs: seq<X>, f: X -> Result<T>): (r: Result<seq<T>>)
    ensures r.Ok? <==> forall i :: 0 <= i < |xs| ==> f(xs[i]).Ok?
    ensures r.Ok? ==> |r.value| == |xs| && forall i :: 0 <= i < |xs| ==> f(xs[i]) == Ok(r.value[i])
    ensures r.Raise? ==> exists i :: 0 <= i < |xs| && f(xs[i]) == Raise(r.exc)
                                      && forall j :: 0 <= j < i ==> f(xs[j]).Ok?
  {
    if xs == [] then Ok([])
    else
      var y :- f(xs[0]);
      var ys :- Collect(xs[1..], f);
      Ok([y] + ys)
  }

  /** When element `i` is the first for which `f` raises, the comprehension
      raises that element's exception. */
  lemma CollectFirstRaise<X, T>(xs: seq<X>, f: X -> Result<T>, i: nat)
    requires i < |xs| && f(xs[i]).Raise?
    requires forall j :: 0 <= j < i ==> f(xs[j]).Ok?
    ensures Collect(xs, f) == Raise(f(xs[i]).exc)
  {
    // The first failing element is unique, so `Collect`'s own contract fixes the exception.
  }
}

=== FILE: utf8.dfy ===
/** UTF-8, as Python's `str.encode()` applies it by default: each Unicode
    scalar value becomes one to four bytes. The decoder is strict (no
    overlong forms, no surrogates, nothing above U+10FFFF), so it accepts
    exactly the encoder's outputs. */
module Utf8 {
  import opened Optional
  import opened Bytes

  predicate IsContinuation(b: byte) {
    0x80 <= b < 0xC0
  }

  /** The bytes of one scalar value. */
  function EncodeChar(c: char): (bs: seq<byte>)
    ensures 1 <= |bs| <= 4
    ensures |bs| == 1 <==> c as int < 0x80
    ensures bs[0] < 0x80 || 0xC2 <= bs[0] < 0xF5
    ensures forall i :: 1 <= i < |bs| ==> IsContinuation(bs[i])
  {
    var cp := c as int;
    if cp < 0x80 then [cp]
    else if cp < 0x800 then [0xC0 + cp / 64, 0x80 + cp % 64]
    else if cp < 0x10000 then [0xE0 + cp / 64 / 64, 0x80 + cp / 64 % 64, 0x80 + cp % 64]
    else [0xF0 + cp / 64 / 64 / 64, 0x80 + cp / 64 / 64 % 64, 0x80 + cp / 64 % 64, 0x80 + cp % 64]
  }

  function Encode(s: string): seq<byte> {
    if s == [] then [] else EncodeChar(s[0]) + Encode(s[1..])
  }

  predicate IsScalar(cp: int) {
    (0 <= cp < 0xD800) || (0xE000 <= cp < 0x110000)
  }

  /** Reads one scalar value from the front of `bs`, with the number of
      bytes it occupies. */
  function DecodeChar(bs: seq<byte>): (r: Option<(char, nat)>)
    requires bs != []
    ensures r.Some? ==> 1 <= r.value.1 <= |bs| && r.value.1 <= 4
  {
    var b0 := bs[0] as int;
    if b0 < 0x80 then Some((b0 as char, 1))
    else if 0xC0 <= b0 < 0xE0 && |bs| >= 2 && IsContinuation(bs[1]) then
      var cp := (b0 - 0xC0) * 64 + (bs[1] as int - 0x80);
      if 0x80 <= cp then Some((cp as char, 2)) else None
    else if 0xE0 <= b0 < 0xF0 && |bs| >= 3 && IsContinuation(bs[1]) && IsContinuation(bs[2]) then
      var cp := (b0 - 0xE0) * 4096 + (bs[1] as int - 0x80) * 64 + (bs[2] as int - 0x80);
      if 0x800 <= cp && IsScalar(cp) then Some((cp as char, 3)) else None
    else if 0xF0 <= b0 < 0xF8 && |bs| >= 4
            && IsContinuation(bs[1]) && IsContinuation(bs[2]) && IsContinuation(bs[3]) then
      var cp := (b0 - 0xF0) * 262144 + (bs[1] as int - 0x80) * 4096 + (bs[2] as int - 0x80) * 64 + (bs[3] as int - 0x80);
      if 0x10000 <= cp < 0x110000 then Some((cp as char, 4)) else None
    else None
  }

  function Decode(bs: seq<byte>): Option<string>
    decreases |bs|
  {
    if bs == [] then Some([])
    else
      match DecodeChar(bs)
      case None => None
      case Some((c, n)) =>
        match Decode(bs[n..])
        case None => None
        case Some(rest) => Some([c] + rest)
  }

  /** Reading the front of an encoded character gives that character back. */
  lemma DecodeEncodeChar(c: char, rest: seq<byte>)
    ensures DecodeChar(EncodeChar(c) + rest) == Some((c, |EncodeChar(c)|))
  {
    var cp := c as int;
    if cp < 0x80 {
    } else if cp < 0x800 {
      DecodeEncode2(c, rest);
    } else if cp < 0x10000 {
      DecodeEncode3(c, rest);
    } else {
      DecodeEncode4(c, rest);
    }
  }

  lemma DecodeEncode2(c: char, rest: seq<byte>)
    requires 0x80 <= c as int < 0x800
    ensures DecodeChar(EncodeChar(c) + rest) == Some((c, 2))
  {
    var cp := c as int;
    var bs := EncodeChar(c) + rest;
    var q, r := cp / 64, cp % 64;
    assert cp == q * 64 + r;
    assert bs[0] as int - 0xC0 == q && bs[1] as int - 0x80 == r;
  }

  lemma DecodeEncode3(c: char, rest: seq<byte>)
    requires 0x800 <= c as int < 0x10000
    ensures DecodeChar(EncodeChar(c) + rest) == Some((c, 3))
  {
    var cp := c as int;
    var bs := EncodeChar(c) + rest;
    var q1, r1 := cp / 64, cp % 64;
    var q2, r2 := q1 / 64, q1 % 64;
    assert cp == q1 * 64 + r1 && q1 == q2 * 64 + r2;
    assert bs[0] as int - 0xE0 == q2 && bs[1] as int - 0x80 == r2 && bs[2] as int - 0x80 == r1;
    assert cp == q2 * 4096 + r2 * 64 + r1;
  }

  lemma DecodeEncode4(c: char, rest: seq<byte>)
    requires 0x10000 <= c as int
    ensures DecodeChar(EncodeChar(c) + rest) == Some((c, 4))
  {
    var cp := c as int;
    var bs := EncodeChar(c) + rest;
    var q1, r1 := cp / 64, cp % 64;
    var q2, r2 := q1 / 64, q1 % 64;
    var q3, r3 := q2 / 64, q2 % 64;
    assert cp == q1 * 64 + r1 && q1 == q2 * 64 + r2 && q2 == q3 * 64 + r3;
    assert bs[0] as int - 0xF0 == q3 && bs[1] as int - 0x80 == r3;
    assert bs[2] as int - 0x80 == r2 && bs[3] as int - 0x80 == r1;
    assert cp == q3 * 262144 + r3 * 4096 + r2 * 64 + r1;
  }

  /** Decoding an encoding gives back the original string. */
  lemma {:induction false} DecodeEncode(s: string)
    ensures Decode(Encode(s)) == Some(s)
  {
    if s != [] {
      var e := EncodeChar(s[0]);
      var rest := Encode(s[1..]);
      DecodeEncodeChar(s[0], rest);
      assert (e + rest)[|e|..] == rest;
      DecodeEncode(s[1..]);
      assert s == [s[0]] + s[1..];
    }
  }

  /** A character the decoder reads re-encodes to the bytes it was read from. */
  lemma EncodeDecodeChar(bs: seq<byte>)
    requires bs != []
    requires DecodeChar(bs).Some?
    ensures EncodeChar(DecodeChar(bs).value.0) == bs[..DecodeChar(bs).value.1]
  {
    var b0 := bs[0] as int;
    if 0x80 <= b0 < 0xE0 {
      EncodeDecode2(bs);
    } else if 0xE0 <= b0 < 0xF0 {
      EncodeDecode3(bs);
    } else if 0xF0 <= b0 {
      EncodeDecode4(bs);
    }
  }

  lemma EncodeDecode2(bs: seq<byte>)
    requires bs != [] && 0x80 <= bs[0] < 0xE0
    requires DecodeChar(bs).Some?
    ensures EncodeChar(DecodeChar(bs).value.0) == bs[..2]
  {
    var x0, x1 := bs[0] as int - 0xC0, bs[1] as int - 0x80;
    var cp := DecodeChar(bs).value.0 as int;
    assert cp == x0 * 64 + x1;
    assert cp / 64 == x0 && cp % 64 == x1;
  }

  lemma EncodeDecode3(bs: seq<byte>)
    requires bs != [] && 0xE0 <= bs[0] < 0xF0
    requires DecodeChar(bs).Some?
    ensures EncodeChar(DecodeChar(bs).value.0) == bs[..3]
  {
    var x0, x1, x2 := bs[0] as int - 0xE0, bs[1] as int - 0x80, bs[2] as int - 0x80;
    var cp := DecodeChar(bs).value.0 as int;
    assert cp == (x0 * 64 + x1) * 64 + x2;
    assert cp / 64 == x0 * 64 + x1 && cp % 64 == x2;
    assert cp / 64 / 64 == x0 && cp / 64 % 64 == x1;
  }

  lemma EncodeDecode4(bs: seq<byte>)
    requires bs != [] && 0xF0 <= bs[0]
    requires DecodeChar(bs).Some?
    ensures EncodeChar(DecodeChar(bs).value.0) == bs[..4]
  {
    var x0, x1 := bs[0] as int - 0xF0, bs[1] as int - 0x80;
    var x2, x3 := bs[2] as int - 0x80, bs[3] as int - 0x80;
    var cp := DecodeChar(bs).value.0 as int;
    assert cp == ((x0 * 64 + x1) * 64 + x2) * 64 + x3;
    assert cp / 64 == (x0 * 64 + x1) * 64 + x2 && cp % 64 == x3;
    assert cp / 64 / 64 == x0 * 64 + x1 && cp / 64 % 64 == x2;
    assert cp / 64 / 64 / 64 == x0 && cp / 64 / 64 % 64 == x1;
  }

  /** Whatever the decoder accepts, the encoder reproduces exactly. */
  lemma {:induction false} EncodeDecode(bs: seq<byte>)
    requires Decode(bs).Some?
    ensures Encode(Decode(bs).value) == bs
    decreases |bs|
  {
    if bs != [] {
      var (c, n) := DecodeChar(bs).value;
      EncodeDecodeChar(bs);
      EncodeDecode(bs[n..]);
      var s := Decode(bs).value;
      assert s == [c] + Decode(bs[n..]).value;
      assert s[1..] == Decode(bs[n..]).value;
      assert bs == bs[..n] + bs[n..];
    }
  }

  /** ASCII text is its own encoding, byte for byte. */
  lemma {:induction false} EncodeAscii(s: string)
    requires forall i :: 0 <= i < |s| ==> s[i] as int < 0x80
    ensures |Encode(s)| == |s|
    ensures forall i :: 0 <= i < |s| ==> Encode(s)[i] == s[i] as int
  {
    if s != [] {
      EncodeAscii(s[1..]);
      assert Encode(s) == [s[0] as int] + Encode(s[1..]);
    }
  }

  /** Encoding distributes over concatenation. */
  lemma {:induction false} EncodeAppend(s: string, t: string)
    ensures Encode(s + t) == Encode(s) + Encode(t)
  {
    if s != [] {
      assert (s + t)[0] == s[0];
      assert (s + t)[1..] == s[1..] + t;
      EncodeAppend(s[1..], t);
    } else {
      assert s + t == t;
    }
  }
}
